=== FILE: README.md ===
# GF Regression client: a verified model

`GFRegression` (in `Lib/diffbrowsers/gfregression.py` of diffbrowsers) is a thin
client for the GF Regression font-comparison service. A client is bound to one
service instance. It starts a comparison session by uploading font files, or
attaches to an existing session by finding the session's UUID in a page URL. It
then builds screenshot URLs for the session's comparison views.

This project models the client's logic in Dafny and proves properties of it:

- `wrappers.dfy`, module `Wrappers`: `Option` and `Result`.
- `strings.dfy`, module `Strings`: the Python string behaviour the client relies
  on. This covers `str.split` on one character, `sep.join`, counting a
  character, substring search, and `'%s' % n` for an integer.
- `gfregression.dfy`, module `GFRegression`:
  - the client state (`Client`: instance URL, optional session id, opaque font
    records) and its error kinds;
  - `_extract_uuid`, as a function (`ExtractUuid`) and as the source's nested
    loops (`ScanForUuid`);
  - `url`;
  - the endpoint and payload chosen by `new_session`;
  - `new_session`, `load_session`, `_session_info` (`SessionInfo`) and the
    info URL it builds (`SessionInfoUrl`).
- `gfregression_props.dfy`, module `GFRegressionProperties`: lemmas that relate
  the operations to each other, plus worked examples.

Each operation that changes `self` and may raise returns a `Step`. A `Step` holds
the client state after the call and either `Done` or the error raised. The
source writes some fields before it can fail, and `Step` keeps that visible:

- `load_session` sets the uuid before the info lookup.
- `new_session` sets the uuid before it reads `fonts` from the reply.

HTTP replies are parameters. For `load_session` it is a function from the
info URL to an optional reply. For `new_session` it is a function from the
upload request (endpoint plus ordered `(field, path)` parts) to an optional
reply. `None` means that no reply came back. A reply is a status code and a
body. The body is either not a JSON object, or a JSON object in which each of
`uuid` and `fonts` may be missing.

Python raises a bare `Exception` for "no session", "no uuid in url" and "bad
info status". The model gives each of these its own `Error` constructor, which
carries the source's message text. The other failures have their own
constructors:

- `Transport`: no reply came back.
- `UndecodableBody`: `json.loads` rejects the body, or it is not a JSON object.
- `MissingKey(key)`: a `KeyError` from indexing the decoded object (lines 54-55
  and 62).

Behaviour of the code worth knowing, all of it stated by the model:

- **A failed `new_session` is not atomic.** The code assigns `uuid` (line 54)
  before it reads `fonts` (line 55). So a reply that has `uuid` but no `fonts`
  replaces the session id and keeps the old fonts. A reply without `uuid`
  raises before anything is assigned and leaves the client unchanged.
  `NewSession` states both cases.
- **A string `fonts_before` other than the sentinel is iterated.** The loop of
  line 51 then visits its characters, so each character is sent as a path.
  See `TextUploadsAsCharacterList` and `UploadSentinelOnlyAsString`.
- **Info-lookup errors have different sources.** The client raises its own
  message only for a status other than 200 (line 101). A body that is not
  valid JSON fails inside `json.loads` (line 102). A decoded value without a
  `fonts` key fails with a `KeyError` when `load_session` indexes it (line 62).
- **The upload status is not checked.** `new_session` never looks at the
  upload reply's status code (lines 52-53).

## Model

| member | source | states |
|---|---|---|
| Strings.Split | Lib/diffbrowsers/gfregression.py:83 | `url.split('/')`. There is always at least one piece, and no piece contains `/`. |
| Strings.JoinSplit | Lib/diffbrowsers/gfregression.py:83 | Joining the pieces of a split with the separator gives back the URL, so no character is lost or invented. |
| Strings.SplitJoin | Lib/diffbrowsers/gfregression.py:83 | Splitting undoes joining pieces that have no separator, so each segment `_extract_uuid` sees is exactly a piece between slashes. |
| Strings.SplitPieceCount | Lib/diffbrowsers/gfregression.py:83 | There is exactly one more segment than the URL has `/` characters. Empty segments count (`http://h` gives `http:`, `""` and `h`). |
| Strings.SplitConcat | Lib/diffbrowsers/gfregression.py:70-73 | Splitting `a + "/" + b` gives the segments of `a` followed by those of `b`. This is how a formatted URL falls apart into segments. |
| Strings.CountIsMultiplicity | Lib/diffbrowsers/gfregression.py:85-88 | The hyphen counter equals the number of `-` characters in the segment, i.e. its multiplicity in the segment's multiset. |
| Strings.CountConcat | Lib/diffbrowsers/gfregression.py:86-88 | Counts add up over concatenation, which is the step of the per-character counting loop. |
| Strings.JoinCount | Lib/diffbrowsers/gfregression.py:83-89 | Joining `n` pieces that contain no separator gives a text with exactly `n - 1` separators. |
| Strings.JoinWithContainsEach | Lib/diffbrowsers/gfregression.py:24 | Every element of a `', '.join(...)` occurs in the joined text. |
| Strings.Decimal | Lib/diffbrowsers/gfregression.py:73 | `str(n)` of a natural number: non-empty decimal digits with no leading zero whose value is `n`. |
| Strings.IntText | Lib/diffbrowsers/gfregression.py:73 | `'%s' % pt` for an integer: a leading `-` exactly when it is negative, followed by digits that denote its absolute value, with no leading zero unless the value is 0, and never a `/`. |
| GFRegression.NewClient | Lib/diffbrowsers/gfregression.py:31-34 | A new client is bound to the given instance URL, with uuid `None` and no fonts, so it has no session. |
| GFRegression.UnknownViewMessage | Lib/diffbrowsers/gfregression.py:21-25 | The message of `UnknownGFRegressionViewError` names each of the five views. |
| GFRegression.FirstUuidLike | Lib/diffbrowsers/gfregression.py:84-90 | The index returned holds a segment with exactly four hyphens, and no earlier segment has four. No index is returned exactly when no segment has four. |
| GFRegression.ExtractUuid | Lib/diffbrowsers/gfregression.py:83-91 | It succeeds iff some segment has exactly four hyphens, and then returns the first such segment. That segment has no `/` and exactly four `-`, with no check of hex digits or group lengths. Otherwise it fails with the "Url does not contain a valid uuid4" error. |
| GFRegression.CountDashes | Lib/diffbrowsers/gfregression.py:85-88 | The inner loop's hyphen counter ends equal to the number of `-` in the segment. |
| GFRegression.ScanForUuid | Lib/diffbrowsers/gfregression.py:83-91 | The source's outer scan over segments and inner hyphen-counting loop return exactly what `ExtractUuid` specifies. |
| GFRegression.Url | Lib/diffbrowsers/gfregression.py:64-74 | An unknown view fails with the unknown-view error even when no session is set, so the view check comes first. A known view fails with the no-session error when the uuid is unset or empty. It succeeds exactly when both checks pass, and then returns `base/screenshot/uuid/view/font_type`, plus `/pt` only when `pt` is truthy. |
| GFRegression.ShapeUpload | Lib/diffbrowsers/gfregression.py:45-51 | The sentinel string selects `/api/upload/googlefonts`. Anything else selects `/api/upload/user`. The `fonts_after` parts carry exactly `fonts_after`, in order. The `fonts_before` parts carry nothing for the sentinel and otherwise exactly what iterating `fonts_before` yields. There are no other parts, and no `fonts_after` part comes after a `fonts_before` part. |
| GFRegression.NewSession | Lib/diffbrowsers/gfregression.py:52-55 | No reply fails with `Transport`, a body that is not a JSON object with `UndecodableBody`, and an object without `uuid` with `MissingKey("uuid")`. In these three cases the client is unchanged. An object with `uuid` always sets the client's uuid to it. If it then lacks `fonts`, the call fails with `MissingKey("fonts")` on the new uuid and the old fonts. Success is exactly an object with both keys, and the session is then replaced by them. The instance URL never changes. |
| GFRegression.SessionInfoUrl | Lib/diffbrowsers/gfregression.py:93-98 | The info lookup is refused iff there is no truthy uuid. Otherwise it targets `base/api/info/uuid`. |
| GFRegression.SessionInfo | Lib/diffbrowsers/gfregression.py:93-102 | Without a truthy uuid the lookup is refused with the no-session error. With one, the GET goes to `base/api/info/uuid`. A missing reply fails with `Transport`, and a status other than 200 fails with `url <info url> is invalid`. A 200 reply whose body is not a JSON object fails with `UndecodableBody`. Otherwise it returns the decoded object. It never reports a missing key. |
| GFRegression.LoadSession | Lib/diffbrowsers/gfregression.py:58-62 | If extraction fails, nothing changes. Otherwise the uuid becomes the extracted (UUID-like) segment whatever the lookup does. Fonts change only on success. Success is exactly a status-200 reply with a `fonts` key at `base/api/info/uuid`. A 200 object without `fonts` fails with `MissingKey("fonts")`. The no-session error of `_session_info` can never occur. |
| GFRegressionProperties.UrlSegments | Lib/diffbrowsers/gfregression.py:70-73 | A view URL splits into: the root's segments, `screenshot`, the uuid's segments, the view, the rendering mode's segments, and the point size's segments when it is given. |
| GFRegressionProperties.ExtractAfterPlainPrefix | Lib/diffbrowsers/gfregression.py:84-90 | If the segments are non-UUID-like ones, then a UUID-like one, then anything, extraction returns that UUID-like segment. |
| GFRegressionProperties.ExtractFromUrl | Lib/diffbrowsers/gfregression.py:64-91 | Round trip: if the instance URL has no UUID-like segment and the uuid is a single UUID-like segment, extracting from any view URL returns that uuid. |
| GFRegressionProperties.LoadSessionFromOwnUrl | Lib/diffbrowsers/gfregression.py:58-74 | Under the same conditions, any client that loads a view URL ends up on the session that produced it, whether or not its lookup then succeeds. |
| GFRegressionProperties.ProductionUrlHasNoUuid | Lib/diffbrowsers/gfregression.py:10 | The default instance URL has no UUID-like segment, so the round trip holds for clients on the default instance. |
| GFRegressionProperties.FreshClientHasNoSession | Lib/diffbrowsers/gfregression.py:33-34 | A new client has uuid `None` and fonts `[]`, so it has no session. Every `url` call on it fails, with the no-session error for a valid view, and so does the info lookup. |
| GFRegressionProperties.NewSessionThenUrl | Lib/diffbrowsers/gfregression.py:54-55 | After a successful upload, view URLs are built from the returned uuid, whatever session was loaded before. They are refused if that uuid is empty. |
| GFRegressionProperties.ExtractUuidOfSegment | Lib/diffbrowsers/gfregression.py:83-90 | Any text without `/` that has exactly four hyphens is returned as it is. |
| GFRegressionProperties.ExtractUuidFromComparePage | Lib/diffbrowsers/gfregression.py:76-90 | On `http://<host>/compare/<id>/...`, where the host is not UUID-like, the UUID-like `<id>` is returned whatever follows it. |
| GFRegressionProperties.ExtractUuidRejectsComparePage | Lib/diffbrowsers/gfregression.py:91 | A comparison page URL with no four-hyphen segment is refused with the malformed-URL error. |
| GFRegressionProperties.GroupsAreUuidLike | Lib/diffbrowsers/gfregression.py:85-89 | Any five groups without `-` or `/`, joined with `-`, form one segment that the scan accepts, whatever the groups contain. |
| GFRegressionProperties.ExtractUuidDocstringExample | Lib/diffbrowsers/gfregression.py:79-81 | The docstring's URL on host `127.0.0.1:5000` yields `a3ec8a52-690d-4faf-b567-13a488125c62`, written as its five groups joined with `-`. |
| GFRegressionProperties.ExtractUuidHeuristicExample | Lib/diffbrowsers/gfregression.py:83-90 | `aa-bb-cc-dd-ee`, written as its groups, is accepted as a session id: the heuristic is not a UUID grammar. |
| GFRegressionProperties.TextUploadsAsCharacterList | Lib/diffbrowsers/gfregression.py:45-51 | A `fonts_before` string other than the sentinel is uploaded exactly like the list of its one-character strings, to the same endpoint and in the same order. |
| GFRegressionProperties.UploadShapeExamples | Lib/diffbrowsers/gfregression.py:45-51 | `new_session('from-googlefonts', [f1, f2])` posts two `fonts_after` parts to the googlefonts endpoint. `new_session([b1], [f1])` posts `fonts_after f1` and then `fonts_before b1` to the user endpoint. |
| GFRegressionProperties.UploadSentinelOnlyAsString | Lib/diffbrowsers/gfregression.py:45-51 | A list holding the sentinel goes to the user endpoint. Another string is sent character by character. |
| GFRegressionProperties.LoadSessionThroughSessionInfo | Lib/diffbrowsers/gfregression.py:58-62 | After a successful extraction, every failure of `_session_info` comes out of `load_session` unchanged, with the client on the new uuid. `load_session` succeeds exactly when `_session_info` returns an object with `fonts`. |
| GFRegressionProperties.LoadSessionLookupFailure | Lib/diffbrowsers/gfregression.py:98-101 | A non-200 info reply leaves the client on the new uuid with its old fonts, and raises `url <info url> is invalid`. |

## Left out

- `_validate_instance` (lines 104-110), and with it the liveness check in the
  constructor. It is a substring test on a live HTTP response body. `NewClient`
  models only the state the constructor sets (lines 33-34).
- The HTTP calls (lines 52, 99, 106) and JSON decoding (lines 53, 102). They are
  network I/O and foreign library calls, so replies are oracle parameters. A
  reply's body is modelled as already decoded, or as not a JSON object.
- Opening the font files (lines 47, 50-51). This is file I/O. A file that
  cannot be opened raises before the POST and changes nothing, which is the
  same effect as a POST with no reply. Both are the oracle's `None`, so the
  model does not tell them apart.
- Logging (lines 7-8, 44, 56). It only observes.
- The content of the font records. The service returns opaque JSON, which the
  model keeps as `FontRecord(json)` values in a sequence.
- GFRegression.SessionInfo: a reply body that is valid JSON but not an object,
  such as a list, is folded into `UndecodableBody` inside `SessionInfo`. In the
  source `_session_info` returns such a value and line 62 then fails on it. The
  call fails either way, and the client's state is the same.
- GFRegression.Url: `pt` is modelled as an integer or a string. `'%s' %` of
  other Python values (floats, booleans, tuples) is not modelled.
- GFRegression.NewSession: the reply's `uuid` is modelled as a string. A JSON
  `uuid` of another type, such as a number or `null`, is not modelled.
- The default argument of the constructor is the constant `ProductionUrl`.
  Dafny callers pass it explicitly.

=== FILE: gfregression.dfy ===
/** The GF Regression client (`GFRegression` in gfregression.py): the state it
    keeps about one comparison session, the UUID heuristic it uses to attach to
    an existing session page, the view URLs it formats, and the shape of the
    upload it sends when starting a session.

    HTTP replies are supplied as oracle functions from the request to an
    optional reply (`None` when no reply arrives: a transport failure, or a
    font file that could not be opened), so every operation is a total
    function of the client state and the replies it would see. An operation
    that can fail returns a `Step`: the state after the call, which the source
    partly updates before some failures, together with the outcome. */
module GFRegression {
  import opened Wrappers
  import opened Strings

  /** The instance a client is bound to when none is named (`GF_PRODUCTION_URL`). */
  const ProductionUrl: string := "http://www.gf-regression.com"

  /** The comparison views the service offers (`VIEWS`). */
  const Views: seq<string> :=
    ["glyphs-all", "glyphs-missing", "glyphs-new", "glyphs-modified", "waterfall"]

  /** Text of `UnknownGFRegressionViewError`: the views joined by ", ", so
      the message names every valid view. */
  function UnknownViewMessage(): (m: string)
    ensures forall i :: 0 <= i < |Views| ==> IsInfix(Views[i], m)
  {
    ViewsNamedBetween("View is not valid. Choose from [", "]");
    "View is not valid. Choose from [" + JoinWith(Views, ", ") + "]"
  }

  /** Every view occurs in any text that embeds the views joined by ", ". */
  lemma ViewsNamedBetween(prefix: string, suffix: string)
    ensures forall i :: 0 <= i < |Views| ==> IsInfix(Views[i], prefix + JoinWith(Views, ", ") + suffix)
  {
    forall i | 0 <= i < |Views|
      ensures IsInfix(Views[i], prefix + JoinWith(Views, ", ") + suffix)
    {
      JoinWithContainsEach(Views, ", ", i);
      InfixOfConcat(Views[i], prefix, JoinWith(Views, ", "), suffix);
    }
  }

  const NoUploadMessage: string := "No fonts uploaded or previous uuid defined"
  const NoSessionMessage: string := "No fonts uploaded or session loaded"
  const NoUuidMessage: string := "Url does not contain a valid uuid4"

  /** The failures a call can end in. The first four are raised by the client
      itself and carry its message; the others stand for exceptions of the
      HTTP and JSON libraries. */
  datatype Error =
    | UnknownView(message: string)
    | NoActiveSession(message: string)
    | MalformedUrl(message: string)
    | SessionLookup(message: string)
    | Transport
    | UndecodableBody
    | MissingKey(key: string)

  /** One font description returned by the service, kept as opaque JSON text. */
  datatype FontRecord = FontRecord(json: string)

  /** The client's state: the service root, the current session id, and the
      font descriptions of that session. */
  datatype Client = Client(instanceUrl: string, uuid: Option<string>, fonts: seq<FontRecord>)

  /** A decoded JSON object reply; a key the object lacks is `None`. */
  datatype JsonObject = JsonObject(uuid: Option<string>, fonts: Option<seq<FontRecord>>)

  /** An HTTP reply; `body` is `None` when it is not a JSON object. */
  datatype Reply = Reply(status: int, body: Option<JsonObject>)

  datatype Status = Done | Failed(error: Error)

  /** The client after a call, and whether the call returned or raised. */
  datatype Step = Step(after: Client, status: Status)

  /** A client bound to a service instance, before any session exists. */
  function NewClient(instanceUrl: string): (c: Client)
    ensures c.instanceUrl == instanceUrl && c.uuid == None && c.fonts == []
    ensures !HasSession(c)
  {
    Client(instanceUrl, None, [])
  }

  /** Python truthiness of `self.uuid`: set and not the empty string. */
  predicate HasSession(c: Client)
  {
    c.uuid.Some? && c.uuid.value != ""
  }

  // ---------------------------------------------------------------------------
  // UUID extraction (`_extract_uuid`)
  // ---------------------------------------------------------------------------

  /** The heuristic: exactly four hyphens, whatever the other characters. */
  predicate IsUuidLike(segment: string)
  {
    Count(segment, '-') == 4
  }

  /** `k` is the position of the first UUID-like segment. */
  predicate IsFirstUuidLike(segments: seq<string>, k: int)
  {
    && 0 <= k < |segments|
    && IsUuidLike(segments[k])
    && forall j :: 0 <= j < k ==> !IsUuidLike(segments[j])
  }

  /** Position of the first UUID-like segment, if any. */
  function FirstUuidLike(segments: seq<string>): (k: Option<nat>)
    ensures k.Some? ==> IsFirstUuidLike(segments, k.value)
    ensures k.None? ==> forall j :: 0 <= j < |segments| ==> !IsUuidLike(segments[j])
  {
    if |segments| == 0 then None
    else if IsUuidLike(segments[0]) then Some(0)
    else match FirstUuidLike(segments[1..])
      case None => None
      case Some(k) => Some(k + 1)
  }

  /** There is only one first UUID-like segment. */
  lemma FirstUuidLikeUnique(segments: seq<string>, k: int)
    requires IsFirstUuidLike(segments, k)
    ensures FirstUuidLike(segments) == Some(k)
  {
  }

  /** `_extract_uuid`: the first `/`-separated segment of `url` holding exactly
      four hyphens, or `MalformedUrl` when there is none. */
  function ExtractUuid(url: string): (r: Result<string, Error>)
    ensures r.Success? <==> exists j :: 0 <= j < |Split(url, '/')| && IsUuidLike(Split(url, '/')[j])
    ensures r.Success? ==>
      exists k :: IsFirstUuidLike(Split(url, '/'), k) && r.value == Split(url, '/')[k]
    ensures r.Success? ==> '/' !in r.value && Count(r.value, '-') == 4
    ensures r.Failure? ==> r.error == MalformedUrl(NoUuidMessage)
  {
    var segments := Split(url, '/');
    match FirstUuidLike(segments)
    case None => Failure(MalformedUrl(NoUuidMessage))
    case Some(k) =>
      assert 0 <= k < |Split(url, '/')| && IsUuidLike(Split(url, '/')[k]);
      Success(segments[k])
  }

  /** Extraction returns the segment at the first UUID-like position. */
  lemma ExtractUuidAt(url: string, k: int)
    requires IsFirstUuidLike(Split(url, '/'), k)
    ensures ExtractUuid(url) == Success(Split(url, '/')[k])
  {
  }

  /** Extraction fails when no segment is UUID-like. */
  lemma ExtractUuidNone(url: string)
    requires forall j :: 0 <= j < |Split(url, '/')| ==> !IsUuidLike(Split(url, '/')[j])
    ensures ExtractUuid(url) == Failure(MalformedUrl(NoUuidMessage))
  {
  }

  /** The inner loop of `_extract_uuid`: count the hyphens of one segment. */
  method CountDashes(segment: string) returns (dashCount: nat)
    ensures dashCount == Count(segment, '-')
  {
    dashCount := 0;
    var i := 0;
    while i < |segment|
      invariant 0 <= i <= |segment|
      invariant dashCount == Count(segment[..i], '-')
    {
      assert segment[..i + 1] == segment[..i] + [segment[i]];
      CountConcat(segment[..i], [segment[i]], '-');
      if segment[i] == '-' {
        dashCount := dashCount + 1;
      }
      i := i + 1;
    }
    assert segment[..i] == segment;
  }

  /** `_extract_uuid` as the source writes it: a scan over the segments that
      returns at the first one whose hyphen count is four. */
  method ScanForUuid(url: string) returns (r: Result<string, Error>)
    ensures r == ExtractUuid(url)
  {
    var segments := Split(url, '/');
    var idx := 0;
    while idx < |segments|
      invariant 0 <= idx <= |segments|
      invariant forall j :: 0 <= j < idx ==> !IsUuidLike(segments[j])
    {
      var dashCount := CountDashes(segments[idx]);
      if dashCount == 4 {
        ExtractUuidAt(url, idx);
        return Success(segments[idx]);
      }
      idx := idx + 1;
    }
    ExtractUuidNone(url);
    return Failure(MalformedUrl(NoUuidMessage));
  }

  // ---------------------------------------------------------------------------
  // View URLs (`url`)
  // ---------------------------------------------------------------------------

  /** The values `pt` takes: a point size given as a number or as text. */
  datatype PointSize = PtNumber(n: int) | PtWords(text: string)

  /** Python truthiness of `pt`: absent, `0` and `''` are all false. */
  predicate PtGiven(pt: Option<PointSize>)
  {
    match pt
    case None => false
    case Some(PtNumber(n)) => n != 0
    case Some(PtWords(t)) => t != ""
  }

  /** `'%s' % pt`. */
  function PtText(p: PointSize): string
  {
    match p
    case PtNumber(n) => IntText(n)
    case PtWords(t) => t
  }

  /** `url(view, font_type, pt)`: the view is checked first, then the
      session; on success the screenshot URL of the current session, with the
      point size as a last segment only when it is truthy. The client is not
      changed. */
  function Url(c: Client, view: string, fontType: string, pt: Option<PointSize>): (r: Result<string, Error>)
    ensures view !in Views ==> r == Failure(UnknownView(UnknownViewMessage()))
    ensures view in Views && !HasSession(c) ==> r == Failure(NoActiveSession(NoUploadMessage))
    ensures r.Success? <==> view in Views && HasSession(c)
    ensures r.Success? ==>
      r.value == c.instanceUrl + "/screenshot/" + c.uuid.value + "/" + view + "/" + fontType
                 + (if PtGiven(pt) then "/" + PtText(pt.value) else "")
  {
    if view !in Views then Failure(UnknownView(UnknownViewMessage()))
    else if !HasSession(c) then Failure(NoActiveSession(NoUploadMessage))
    else
      var page := c.instanceUrl + "/screenshot/" + c.uuid.value + "/" + view + "/" + fontType;
      Success(if PtGiven(pt) then page + "/" + PtText(pt.value) else page)
  }

  // ---------------------------------------------------------------------------
  // Starting a session (`new_session`)
  // ---------------------------------------------------------------------------

  /** The value compared against `fonts_before` to select the reference run. */
  const GoogleFontsSentinel: string := "from-googlefonts"

  /** `fonts_before`: either a string (the sentinel, in intended use) or a
      list of font paths. */
  datatype FontsBefore = BeforeText(text: string) | BeforeList(paths: seq<string>)

  predicate IsGoogleFontsRun(before: FontsBefore)
  {
    before == BeforeText(GoogleFontsSentinel)
  }

  /** What `for f in fonts_before` visits: the list's paths, or, for a string
      other than the sentinel, its characters one by one. */
  function BeforePaths(before: FontsBefore): seq<string>
  {
    match before
    case BeforeList(ps) => ps
    case BeforeText(t) => seq(|t|, i requires 0 <= i < |t| => [t[i]])
  }

  /** One multipart field: its form name and the path of the file it sends. */
  datatype Part = Part(field: string, path: string)

  datatype UploadRequest = UploadRequest(target: string, payload: seq<Part>)

  /** `[(field, open(f, 'rb')) for f in paths]`, keeping the path for the file. */
  function Tag(field: string, paths: seq<string>): seq<Part>
  {
    seq(|paths|, i requires 0 <= i < |paths| => Part(field, paths[i]))
  }

  /** The paths sent under `field`, in payload order. */
  function PathsOf(payload: seq<Part>, field: string): seq<string>
  {
    if |payload| == 0 then []
    else (if payload[0].field == field then [payload[0].path] else [])
         + PathsOf(payload[1..], field)
  }

  lemma {:induction false} PathsOfConcat(a: seq<Part>, b: seq<Part>, field: string)
    ensures PathsOf(a + b, field) == PathsOf(a, field) + PathsOf(b, field)
  {
    if |a| > 0 {
      assert (a + b)[1..] == a[1..] + b;
      PathsOfConcat(a[1..], b, field);
    } else {
      assert a + b == b;
    }
  }

  lemma {:induction false} PathsOfTag(tag: string, paths: seq<string>, field: string)
    ensures PathsOf(Tag(tag, paths), field) == if tag == field then paths else []
  {
    if |paths| > 0 {
      assert Tag(tag, paths)[1..] == Tag(tag, paths[1..]);
      PathsOfTag(tag, paths[1..], field);
    }
  }

  /** The endpoint and multipart payload `new_session` posts. Against the
      Google Fonts reference only the new fonts are sent; otherwise the new
      fonts are sent first, then the baseline fonts. */
  function ShapeUpload(base: string, before: FontsBefore, after: seq<string>): (req: UploadRequest)
    ensures IsGoogleFontsRun(before) ==> req.target == base + "/api/upload/googlefonts"
    ensures !IsGoogleFontsRun(before) ==> req.target == base + "/api/upload/user"
    ensures PathsOf(req.payload, "fonts_after") == after
    ensures PathsOf(req.payload, "fonts_before") ==
      if IsGoogleFontsRun(before) then [] else BeforePaths(before)
    ensures |req.payload| == |PathsOf(req.payload, "fonts_after")| + |PathsOf(req.payload, "fonts_before")|
    ensures forall i, j :: 0 <= i < j < |req.payload| && req.payload[j].field == "fonts_after" ==>
      req.payload[i].field == "fonts_after"
  {
    var afterParts := Tag("fonts_after", after);
    PathsOfTag("fonts_after", after, "fonts_after");
    PathsOfTag("fonts_after", after, "fonts_before");
    if IsGoogleFontsRun(before) then
      UploadRequest(base + "/api/upload/googlefonts", afterParts)
    else
      var beforeParts := Tag("fonts_before", BeforePaths(before));
      PathsOfTag("fonts_before", BeforePaths(before), "fonts_after");
      PathsOfTag("fonts_before", BeforePaths(before), "fonts_before");
      PathsOfConcat(afterParts, beforeParts, "fonts_after");
      PathsOfConcat(afterParts, beforeParts, "fonts_before");
      UploadRequest(base + "/api/upload/user", afterParts + beforeParts)
  }

  /** `new_session`: post the fonts, then store the reply's `uuid` and then its
      `fonts`. The status code is not looked at. A reply without `uuid` leaves
      the client as it was; one with `uuid` but without `fonts` has already
      replaced the session id when the lookup of `fonts` fails. */
  function NewSession(c: Client, before: FontsBefore, after: seq<string>,
                      post: UploadRequest -> Option<Reply>): (s: Step)
    ensures s.after.instanceUrl == c.instanceUrl
    ensures post(ShapeUpload(c.instanceUrl, before, after)).None? ==> s == Step(c, Failed(Transport))
    ensures var reply := post(ShapeUpload(c.instanceUrl, before, after));
      reply.Some? && reply.value.body.None? ==> s == Step(c, Failed(UndecodableBody))
    ensures var reply := post(ShapeUpload(c.instanceUrl, before, after));
      reply.Some? && reply.value.body.Some? && reply.value.body.value.uuid.None? ==>
        s == Step(c, Failed(MissingKey("uuid")))
    ensures var reply := post(ShapeUpload(c.instanceUrl, before, after));
      reply.Some? && reply.value.body.Some? && reply.value.body.value.uuid.Some? ==>
        s.after.uuid == reply.value.body.value.uuid
    ensures var reply := post(ShapeUpload(c.instanceUrl, before, after));
      reply.Some? && reply.value.body.Some? && reply.value.body.value.uuid.Some?
      && reply.value.body.value.fonts.None? ==>
        s == Step(c.(uuid := reply.value.body.value.uuid), Failed(MissingKey("fonts")))
    ensures s.status.Failed? ==> s.after.fonts == c.fonts
    ensures s.status == Done <==>
      var reply := post(ShapeUpload(c.instanceUrl, before, after));
      reply.Some? && reply.value.body.Some?
      && reply.value.body.value.uuid.Some? && reply.value.body.value.fonts.Some?
    ensures s.status == Done ==>
      var obj := post(ShapeUpload(c.instanceUrl, before, after)).value.body.value;
      s.after == Client(c.instanceUrl, obj.uuid, obj.fonts.value)
    ensures s.after.uuid != c.uuid ==>
      var reply := post(ShapeUpload(c.instanceUrl, before, after));
      reply.Some? && reply.value.body.Some? && s.after.uuid == reply.value.body.value.uuid
  {
    match post(ShapeUpload(c.instanceUrl, before, after))
    case None => Step(c, Failed(Transport))
    case Some(reply) =>
      match reply.body
      case None => Step(c, Failed(UndecodableBody))
      case Some(obj) =>
        match obj.uuid
        case None => Step(c, Failed(MissingKey("uuid")))
        case Some(u) =>
          var withId := c.(uuid := Some(u));
          match obj.fonts
          case None => Step(withId, Failed(MissingKey("fonts")))
          case Some(fonts) => Step(withId.(fonts := fonts), Done)
  }

  // ---------------------------------------------------------------------------
  // Attaching to a session (`load_session`, `_session_info`)
  // ---------------------------------------------------------------------------

  /** The info endpoint `_session_info` queries, refused without a session. */
  function SessionInfoUrl(c: Client): (r: Result<string, Error>)
    ensures r.Success? <==> HasSession(c)
    ensures r.Failure? ==> r.error == NoActiveSession(NoSessionMessage)
    ensures r.Success? ==> r.value == c.instanceUrl + "/api/info/" + c.uuid.value
  {
    if !HasSession(c) then Failure(NoActiveSession(NoSessionMessage))
    else Success(c.instanceUrl + "/api/info/" + c.uuid.value)
  }

  /** `_session_info()`: fetch the session's info object. The lookup is
      refused without a session, fails on a missing reply or a status other
      than 200 (naming the info URL), and fails when the body is not a JSON
      object. */
  function SessionInfo(c: Client, get: string -> Option<Reply>): (r: Result<JsonObject, Error>)
    ensures !HasSession(c) ==> r == Failure(NoActiveSession(NoSessionMessage))
    ensures HasSession(c) ==>
      var info := SessionInfoUrl(c).value;
      && (get(info).None? ==> r == Failure(Transport))
      && (get(info).Some? && get(info).value.status != 200 ==>
            r == Failure(SessionLookup("url " + info + " is invalid")))
      && (get(info).Some? && get(info).value.status == 200 && get(info).value.body.None? ==>
            r == Failure(UndecodableBody))
      && (r.Success? <==>
            get(info).Some? && get(info).value.status == 200 && get(info).value.body.Some?)
      && (r.Success? ==> r.value == get(info).value.body.value)
    ensures r.Failure? ==> !r.error.MissingKey?
  {
    match SessionInfoUrl(c)
    case Failure(e) => Failure(e)
    case Success(infoUrl) =>
      match get(infoUrl)
      case None => Failure(Transport)
      case Some(reply) =>
        if reply.status != 200 then Failure(SessionLookup("url " + infoUrl + " is invalid"))
        else
          match reply.body
          case None => Failure(UndecodableBody)
          case Some(obj) => Success(obj)
  }

  /** `load_session(url)`: set the session id to the extracted segment, then
      look up the session's fonts. A failed lookup keeps the new id and the
      old fonts; a failed extraction changes nothing. */
  function LoadSession(c: Client, pageUrl: string, get: string -> Option<Reply>): (s: Step)
    ensures s.after.instanceUrl == c.instanceUrl
    ensures ExtractUuid(pageUrl).Failure? ==> s == Step(c, Failed(MalformedUrl(NoUuidMessage)))
    ensures ExtractUuid(pageUrl).Success? ==>
      s.after.uuid == Some(ExtractUuid(pageUrl).value) && IsUuidLike(s.after.uuid.value)
    ensures s.status.Failed? ==> s.after.fonts == c.fonts
    ensures !(s.status.Failed? && s.status.error.NoActiveSession?)
    ensures s.status == Done <==>
      && ExtractUuid(pageUrl).Success?
      && var reply := get(SessionInfoUrl(s.after).value);
      && reply.Some? && reply.value.status == 200
      && reply.value.body.Some? && reply.value.body.value.fonts.Some?
    ensures ExtractUuid(pageUrl).Success? ==>
      var reply := get(SessionInfoUrl(s.after).value);
      reply.Some? && reply.value.status == 200 && reply.value.body.Some?
      && reply.value.body.value.fonts.None? ==>
        s.status == Failed(MissingKey("fonts"))
    ensures s.status == Done ==>
      s.after.fonts == get(SessionInfoUrl(s.after).value).value.body.value.fonts.value
  {
    match ExtractUuid(pageUrl)
    case Failure(e) => Step(c, Failed(e))
    case Success(u) =>
      var withId := c.(uuid := Some(u));
      assert HasSession(withId) by { assert '-' in u; }
      match SessionInfo(withId, get)
      case Failure(e) => Step(withId, Failed(e))
      case Success(obj) =>
        match obj.fonts
        case None => Step(withId, Failed(MissingKey("fonts")))
        case Some(fonts) => Step(withId.(fonts := fonts), Done)
  }
}

=== FILE: gfregression_props.dfy ===
/** Properties relating the client's operations to each other: the segments
    of a view URL, re-attaching to a session from one of its own view URLs,
    what a fresh or newly uploaded session allows, and worked examples of the
    UUID heuristic and of the upload shapes. */
module GFRegressionProperties {
  import opened Wrappers
  import opened Strings
  import opened GFRegression

  /** None of the view names contains a `/`. */
  lemma ViewsArePlainSegments(view: string)
    requires view in Views
    ensures '/' !in view
  {
  }

  /** The part of a view URL after the session id. */
  function ViewTail(view: string, fontType: string, pt: Option<PointSize>): string
  {
    view + "/" + fontType + (if PtGiven(pt) then "/" + PtText(pt.value) else "")
  }

  lemma UrlShape(c: Client, view: string, fontType: string, pt: Option<PointSize>)
    requires Url(c, view, fontType, pt).Success?
    ensures Url(c, view, fontType, pt).value
         == c.instanceUrl + "/" + ("screenshot" + "/" + (c.uuid.value + "/" + ViewTail(view, fontType, pt)))
  {
    var suffix := if PtGiven(pt) then "/" + PtText(pt.value) else "";
    var base, id := c.instanceUrl, c.uuid.value;
    assert Url(c, view, fontType, pt).value == base + "/screenshot/" + id + "/" + view + "/" + fontType + suffix;
    ConcatShape(base, id, view, fontType, suffix);
  }

  lemma ConcatShape(base: string, id: string, view: string, fontType: string, suffix: string)
    ensures base + "/screenshot/" + id + "/" + view + "/" + fontType + suffix
         == base + "/" + ("screenshot" + "/" + (id + "/" + (view + "/" + fontType + suffix)))
  {
  }

  lemma SplitThree(first: string, second: string, third: string)
    requires '/' !in first
    ensures Split(first + "/" + second + "/" + third, '/') == [first] + Split(second, '/') + Split(third, '/')
  {
    SplitConcat(second, '/', third);
    assert first + "/" + second + "/" + third == first + "/" + (second + "/" + third);
    SplitPrepend(first, '/', second + "/" + third);
  }

  lemma ViewTailSegments(view: string, fontType: string, pt: Option<PointSize>)
    requires '/' !in view
    ensures Split(ViewTail(view, fontType, pt), '/') ==
      [view] + Split(fontType, '/') + (if PtGiven(pt) then Split(PtText(pt.value), '/') else [])
  {
    if PtGiven(pt) {
      var p := PtText(pt.value);
      assert ViewTail(view, fontType, pt) == view + "/" + fontType + "/" + p;
      SplitThree(view, fontType, p);
    } else {
      assert ViewTail(view, fontType, pt) == view + "/" + fontType;
      SplitPrepend(view, '/', fontType);
    }
  }

  lemma ScreenshotSegments(base: string, id: string, tail: string)
    ensures Split(base + "/" + ("screenshot" + "/" + (id + "/" + tail)), '/')
         == Split(base, '/') + (["screenshot"] + (Split(id, '/') + Split(tail, '/')))
  {
    SplitConcat(id, '/', tail);
    assert '/' !in "screenshot";
    SplitPrepend("screenshot", '/', id + "/" + tail);
    SplitConcat(base, '/', "screenshot" + "/" + (id + "/" + tail));
  }

  lemma Regroup<T>(a: seq<T>, b: T, c: seq<T>, d: T, e: seq<T>, f: seq<T>)
    ensures a + ([b] + (c + ([d] + e + f))) == a + [b] + c + [d] + e + f
  {
  }

  lemma RegroupTail<T>(a: seq<T>, b: seq<T>, c: T, d: seq<T>, e: seq<T>)
    ensures a + b + [c] + d + e == a + b + ([c] + d + e)
  {
  }

  /** The segments of a view URL: those of the service root, `screenshot`,
      those of the session id, the view, those of the rendering mode, and
      those of the point size when it is given. */
  lemma UrlSegments(c: Client, view: string, fontType: string, pt: Option<PointSize>)
    requires Url(c, view, fontType, pt).Success?
    ensures Split(Url(c, view, fontType, pt).value, '/') ==
      Split(c.instanceUrl, '/') + ["screenshot"] + Split(c.uuid.value, '/')
      + [view] + Split(fontType, '/') + (if PtGiven(pt) then Split(PtText(pt.value), '/') else [])
  {
    var tail := ViewTail(view, fontType, pt);
    var url := Url(c, view, fontType, pt).value;
    UrlShape(c, view, fontType, pt);
    ViewsArePlainSegments(view);
    ViewTailSegments(view, fontType, pt);
    ScreenshotSegments(c.instanceUrl, c.uuid.value, tail);
    var ptSegs := if PtGiven(pt) then Split(PtText(pt.value), '/') else [];
    Regroup(Split(c.instanceUrl, '/'), "screenshot", Split(c.uuid.value, '/'),
            view, Split(fontType, '/'), ptSegs);
  }

  /** A UUID-like segment preceded only by segments that are not UUID-like
      is the one extraction returns. */
  lemma ExtractAfterPlainPrefix(url: string, prefix: seq<string>, id: string, rest: seq<string>)
    requires Split(url, '/') == prefix + [id] + rest
    requires forall j :: 0 <= j < |prefix| ==> !IsUuidLike(prefix[j])
    requires IsUuidLike(id)
    ensures ExtractUuid(url) == Success(id)
  {
    var segments := prefix + [id] + rest;
    assert segments[|prefix|] == id;
    assert forall j :: 0 <= j < |prefix| ==> segments[j] == prefix[j];
    ExtractUuidAt(url, |prefix|);
  }

  /** The segments of a service root that holds no session id, followed by
      `screenshot`, hold no UUID-like segment. */
  lemma ScreenshotPrefixPlain(root: string)
    requires ExtractUuid(root).Failure?
    ensures forall j :: 0 <= j < |Split(root, '/') + ["screenshot"]| ==>
      !IsUuidLike((Split(root, '/') + ["screenshot"])[j])
  {
    var prefix := Split(root, '/') + ["screenshot"];
    assert '-' !in "screenshot";
    forall j | 0 <= j < |prefix|
      ensures !IsUuidLike(prefix[j])
    {
      if j < |Split(root, '/')| {
        assert prefix[j] == Split(root, '/')[j];
      }
    }
  }

  /** Extraction from anything that splits like a view URL: the root's
      segments, `screenshot`, a single UUID-like session id, then anything. */
  lemma ExtractFromViewSegments(url: string, root: string, id: string, tail: seq<string>)
    requires Split(url, '/') == Split(root, '/') + ["screenshot"] + Split(id, '/') + tail
    requires ExtractUuid(root).Failure?
    requires '/' !in id && IsUuidLike(id)
    ensures ExtractUuid(url) == Success(id)
  {
    SplitWithoutSeparator(id, '/');
    ScreenshotPrefixPlain(root);
    ExtractAfterPlainPrefix(url, Split(root, '/') + ["screenshot"], id, tail);
  }

  /** Re-attaching from a view URL: when the service root holds no UUID-like
      segment of its own and the session id is a single UUID-like segment,
      extraction recovers exactly that session id. */
  lemma ExtractFromUrl(c: Client, view: string, fontType: string, pt: Option<PointSize>)
    requires Url(c, view, fontType, pt).Success?
    requires ExtractUuid(c.instanceUrl).Failure?
    requires '/' !in c.uuid.value && IsUuidLike(c.uuid.value)
    ensures ExtractUuid(Url(c, view, fontType, pt).value) == Success(c.uuid.value)
  {
    UrlSegments(c, view, fontType, pt);
    var ptSegs := if PtGiven(pt) then Split(PtText(pt.value), '/') else [];
    var tail := [view] + Split(fontType, '/') + ptSegs;
    RegroupTail(Split(c.instanceUrl, '/') + ["screenshot"], Split(c.uuid.value, '/'), view, Split(fontType, '/'), ptSegs);
    ExtractFromViewSegments(Url(c, view, fontType, pt).value, c.instanceUrl, c.uuid.value, tail);
  }

  /** Any client that loads a view URL of another client's session, under the
      conditions above, ends up on that same session id, whether or not the
      info lookup then succeeds. */
  lemma LoadSessionFromOwnUrl(c: Client, d: Client, view: string, fontType: string,
                              pt: Option<PointSize>, get: string -> Option<Reply>)
    requires Url(c, view, fontType, pt).Success?
    requires ExtractUuid(c.instanceUrl).Failure?
    requires '/' !in c.uuid.value && IsUuidLike(c.uuid.value)
    ensures LoadSession(d, Url(c, view, fontType, pt).value, get).after.uuid == c.uuid
  {
    ExtractFromUrl(c, view, fontType, pt);
  }

  /** A fresh client refuses every view URL and every info lookup. */
  lemma FreshClientHasNoSession(base: string, view: string, fontType: string, pt: Option<PointSize>)
    ensures NewClient(base).uuid == None && NewClient(base).fonts == []
    ensures !HasSession(NewClient(base))
    ensures Url(NewClient(base), view, fontType, pt).Failure?
    ensures view in Views ==>
      Url(NewClient(base), view, fontType, pt).error == NoActiveSession(NoUploadMessage)
    ensures SessionInfoUrl(NewClient(base)).Failure?
  {
  }

  /** After a successful upload, view URLs use the session id the service
      returned, whatever session the client held before. */
  lemma NewSessionThenUrl(c: Client, before: FontsBefore, after: seq<string>,
                          post: UploadRequest -> Option<Reply>,
                          view: string, fontType: string, pt: Option<PointSize>)
    requires NewSession(c, before, after, post).status == Done
    requires view in Views
    ensures var id := post(ShapeUpload(c.instanceUrl, before, after)).value.body.value.uuid.value;
      id != "" ==>
        Url(NewSession(c, before, after, post).after, view, fontType, pt)
        == Url(Client(c.instanceUrl, Some(id), []), view, fontType, pt)
    ensures var id := post(ShapeUpload(c.instanceUrl, before, after)).value.body.value.uuid.value;
      id == "" ==>
        Url(NewSession(c, before, after, post).after, view, fontType, pt)
        == Failure(NoActiveSession(NoUploadMessage))
  {
  }

  /** A bare segment with exactly four hyphens is accepted as a session id,
      whatever its other characters and group lengths. */
  lemma ExtractUuidOfSegment(segment: string)
    requires '/' !in segment && Count(segment, '-') == 4
    ensures ExtractUuid(segment) == Success(segment)
  {
    SplitWithoutSeparator(segment, '/');
    FirstUuidLikeUnique([segment], 0);
  }

  lemma ComparePageShape(host: string, last: string)
    ensures "http://" + host + "/compare/" + last
         == "http:" + "/" + ("" + "/" + (host + "/" + ("compare" + "/" + last)))
  {
  }

  /** The segments of a comparison page URL `http://<host>/compare/<rest>`. */
  lemma ComparePageSegments(host: string, rest: string)
    requires '/' !in host
    ensures Split("http://" + host + "/compare/" + rest, '/')
         == ["http:", "", host, "compare"] + Split(rest, '/')
  {
    ComparePageShape(host, rest);
    var t2 := host + "/" + ("compare" + "/" + rest);
    assert '/' !in "compare" && '/' !in "http:";
    SplitPrepend("compare", '/', rest);
    SplitPrepend(host, '/', "compare" + "/" + rest);
    SplitPrepend("", '/', t2);
    SplitPrepend("http:", '/', "" + "/" + t2);
  }

  /** The page URL shape of the source's docstring: on a comparison page of
      a host that is not itself UUID-like, the session id segment is found,
      whatever follows it. */
  lemma ExtractUuidFromComparePage(host: string, id: string, rest: string)
    requires '/' !in host && !IsUuidLike(host)
    requires '/' !in id && IsUuidLike(id)
    ensures ExtractUuid("http://" + host + "/compare/" + (id + "/" + rest)) == Success(id)
  {
    var prefix := ["http:", "", host, "compare"];
    ComparePageSegments(host, id + "/" + rest);
    SplitPrepend(id, '/', rest);
    assert Split("http://" + host + "/compare/" + (id + "/" + rest), '/')
        == prefix + [id] + Split(rest, '/');
    ComparePagePrefixPlain(prefix, host);
    ExtractAfterPlainPrefix("http://" + host + "/compare/" + (id + "/" + rest), prefix, id, Split(rest, '/'));
  }

  /** The fixed segments of a comparison page URL are not UUID-like. */
  lemma ComparePagePrefixPlain(prefix: seq<string>, host: string)
    requires prefix == ["http:", "", host, "compare"] && !IsUuidLike(host)
    ensures forall j :: 0 <= j < |prefix| ==> !IsUuidLike(prefix[j])
  {
    assert '-' !in "http:" && '-' !in "" && '-' !in "compare";
  }

  /** A comparison page URL with no session id segment is refused. */
  lemma ExtractUuidRejectsComparePage(host: string, rest: string)
    requires '/' !in host && !IsUuidLike(host)
    requires forall j :: 0 <= j < |Split(rest, '/')| ==> !IsUuidLike(Split(rest, '/')[j])
    ensures ExtractUuid("http://" + host + "/compare/" + rest) == Failure(MalformedUrl(NoUuidMessage))
  {
    var prefix := ["http:", "", host, "compare"];
    ComparePageSegments(host, rest);
    ComparePagePrefixPlain(prefix, host);
    var segments := prefix + Split(rest, '/');
    assert forall j :: 0 <= j < |segments| ==> !IsUuidLike(segments[j]) by {
      forall j | 0 <= j < |segments|
        ensures !IsUuidLike(segments[j])
      {
        if j >= |prefix| {
          assert segments[j] == Split(rest, '/')[j - |prefix|];
        }
      }
    }
  }

  /** Five hyphen-separated groups free of `-` and `/` make one UUID-like
      segment, whatever the groups hold. */
  lemma GroupsAreUuidLike(groups: seq<string>)
    requires |groups| == 5
    requires forall i :: 0 <= i < |groups| ==> '-' !in groups[i] && '/' !in groups[i]
    ensures '/' !in JoinWith(groups, "-") && IsUuidLike(JoinWith(groups, "-"))
  {
    JoinCount(groups, '-');
    NotInJoin(groups, "-", '/');
  }

  // The lemmas below about fixed texts take each text as a parameter pinned
  // by a `requires` (`host == "host"`) instead of writing the literal in the
  // statement. A literal in the statement lets the verifier unfold every
  // function applied to it character by character, which costs far more
  // than reasoning from one equality about a variable.

  lemma PlainHost(host: string)
    requires host == "127.0.0.1:5000" || host == "host"
    ensures '/' !in host && !IsUuidLike(host)
  {
    assert '-' !in host;
  }

  /** The segments of a service root `http://<host>`. */
  lemma RootSegments(host: string)
    requires '/' !in host
    ensures Split("http://" + host, '/') == ["http:", "", host]
  {
    assert "http://" + host == "http:" + "/" + ("" + "/" + host);
    assert '/' !in "http:";
    SplitWithoutSeparator(host, '/');
    SplitPrepend("", '/', host);
    SplitPrepend("http:", '/', "" + "/" + host);
  }

  /** A service root `http://<host>` whose host is not UUID-like holds no
      session id. */
  lemma RootWithoutUuid(host: string)
    requires '/' !in host && !IsUuidLike(host)
    ensures ExtractUuid("http://" + host).Failure?
  {
    RootSegments(host);
    assert Count("http:", '-') == 0 && Count("", '-') == 0;
  }

  /** The default service root holds no UUID-like segment, so a default
      client's view URLs lead back to its session. Its host is written as the
      join of its two hyphen-free halves. */
  lemma ProductionUrlHasNoUuid()
    ensures ExtractUuid(ProductionUrl).Failure?
  {
    var halves := ["www.gf", "regression.com"];
    var host := JoinWith(halves, "-");
    JoinCount(halves, '-');
    NotInJoin(halves, "-", '/');
    assert ProductionUrl == "http://" + host;
    RootWithoutUuid(host);
  }

  /** The example of the source's docstring, with the session id written as
      its five groups. */
  lemma ExtractUuidDocstringExample(host: string, groups: seq<string>)
    requires host == "127.0.0.1:5000"
    requires groups == ["a3ec8a52", "690d", "4faf", "b567", "13a488125c62"]
    ensures var id := JoinWith(groups, "-");
      ExtractUuid("http://" + host + "/compare/" + (id + "/" + "fonts")) == Success(id)
  {
    GroupsAreUuidLike(groups);
    PlainHost(host);
    ExtractUuidFromComparePage(host, JoinWith(groups, "-"), "fonts");
  }

  /** The heuristic is not a UUID grammar: hyphen-separated words pass. */
  lemma ExtractUuidHeuristicExample(host: string, groups: seq<string>)
    requires host == "host" && groups == ["aa", "bb", "cc", "dd", "ee"]
    ensures var id := JoinWith(groups, "-");
      ExtractUuid("http://" + host + "/compare/" + (id + "/" + "fonts")) == Success(id)
  {
    GroupsAreUuidLike(groups);
    PlainHost(host);
    ExtractUuidFromComparePage(host, JoinWith(groups, "-"), "fonts");
  }

  /** A string other than the sentinel is uploaded exactly like the list of
      its one-character strings. */
  lemma TextUploadsAsCharacterList(base: string, text: string, after: seq<string>)
    requires text != GoogleFontsSentinel
    ensures ShapeUpload(base, BeforeText(text), after)
         == ShapeUpload(base, BeforeList(seq(|text|, i requires 0 <= i < |text| => [text[i]])), after)
  {
    var chars := seq(|text|, i requires 0 <= i < |text| => [text[i]]);
    assert BeforePaths(BeforeText(text)) == chars;
  }

  /** Uploads against the reference send only the new fonts, to the
      googlefonts endpoint; uploads against user fonts send the new fonts,
      then the baseline fonts, to the user endpoint. */
  lemma UploadShapeExamples(base: string, f1: string, f2: string, b1: string)
    ensures ShapeUpload(base, BeforeText(GoogleFontsSentinel), [f1, f2])
         == UploadRequest(base + "/api/upload/googlefonts",
                          [Part("fonts_after", f1), Part("fonts_after", f2)])
    ensures ShapeUpload(base, BeforeList([b1]), [f1])
         == UploadRequest(base + "/api/upload/user",
                          [Part("fonts_after", f1), Part("fonts_before", b1)])
  {
  }

  /** The sentinel is recognised only as a string: a list holding it is a
      list of baseline paths, and any other string is sent character by
      character. */
  lemma UploadSentinelOnlyAsString(base: string)
    ensures ShapeUpload(base, BeforeList([GoogleFontsSentinel]), []).target == base + "/api/upload/user"
    ensures ShapeUpload(base, BeforeText("ab"), []).payload
         == [Part("fonts_before", "a"), Part("fonts_before", "b")]
  {
    assert BeforeList([GoogleFontsSentinel]) != BeforeText(GoogleFontsSentinel);
    assert BeforeText("ab") != BeforeText(GoogleFontsSentinel);
  }

  /** A failed info lookup after a good extraction reports the info URL and
      leaves the client on the new session id with its old fonts. */
  lemma LoadSessionLookupFailure(c: Client, pageUrl: string, get: string -> Option<Reply>)
    requires ExtractUuid(pageUrl).Success?
    requires var info := get(c.instanceUrl + "/api/info/" + ExtractUuid(pageUrl).value);
      info.Some? && info.value.status != 200
    ensures var id := ExtractUuid(pageUrl).value;
      LoadSession(c, pageUrl, get)
      == Step(Client(c.instanceUrl, Some(id), c.fonts),
              Failed(SessionLookup("url " + c.instanceUrl + "/api/info/" + id + " is invalid")))
  {
    var id := ExtractUuid(pageUrl).value;
    var withId := c.(uuid := Some(id));
    var info := c.instanceUrl + "/api/info/" + id;
    UuidLikeIsNonEmpty(id);
    assert "url " + info + " is invalid" == "url " + c.instanceUrl + "/api/info/" + id + " is invalid";
    assert SessionInfo(withId, get) == Failure(SessionLookup("url " + info + " is invalid"));
  }

  /** A UUID-like segment is never empty, so it always counts as a session. */
  lemma UuidLikeIsNonEmpty(segment: string)
    requires IsUuidLike(segment)
    ensures segment != ""
  {
  }

  /** Once a session id has been extracted, `load_session` fails exactly when
      `_session_info` fails or its object lacks `fonts`, and a failure of
      `_session_info` surfaces unchanged, on the new session id. */
  lemma LoadSessionThroughSessionInfo(c: Client, pageUrl: string, get: string -> Option<Reply>)
    requires ExtractUuid(pageUrl).Success?
    ensures var withId := c.(uuid := Some(ExtractUuid(pageUrl).value));
      SessionInfo(withId, get).Failure? ==>
        LoadSession(c, pageUrl, get) == Step(withId, Failed(SessionInfo(withId, get).error))
    ensures var withId := c.(uuid := Some(ExtractUuid(pageUrl).value));
      LoadSession(c, pageUrl, get).status == Done <==>
        SessionInfo(withId, get).Success? && SessionInfo(withId, get).value.fonts.Some?
  {
    UuidLikeIsNonEmpty(ExtractUuid(pageUrl).value);
  }
}

=== FILE: strings.dfy ===
/** The pieces of Python string behaviour the client relies on, over
    `seq<char>`: `str.split(sep)` with a one-character separator, `sep.join`,
    counting a character, substring search, and `'%s' % n` for an integer. */
module Strings {

  /** Number of occurrences of `c` in `s` (the hyphen counter of the UUID scan). */
  function Count(s: string, c: char): (n: nat)
    ensures n <= |s|
    ensures n == 0 <==> c !in s
  {
    if |s| == 0 then 0
    else (if s[0] == c then 1 else 0) + Count(s[1..], c)
  }

  /** The count is the multiplicity of `c` in `s`. */
  lemma {:induction false} CountIsMultiplicity(s: string, c: char)
    ensures Count(s, c) == multiset(s)[c]
  {
    if |s| > 0 {
      assert s == [s[0]] + s[1..];
      assert multiset(s) == multiset([s[0]]) + multiset(s[1..]);
      CountIsMultiplicity(s[1..], c);
    }
  }

  /** Counting distributes over concatenation. */
  lemma {:induction false} CountConcat(a: string, b: string, c: char)
    ensures Count(a + b, c) == Count(a, c) + Count(b, c)
  {
    if |a| > 0 {
      assert (a + b)[1..] == a[1..] + b;
      CountConcat(a[1..], b, c);
    } else {
      assert a + b == b;
    }
  }

  /** Python's `sep.join(parts)`; the empty list joins to the empty string. */
  function JoinWith(parts: seq<string>, sep: string): string
  {
    if |parts| == 0 then ""
    else if |parts| == 1 then parts[0]
    else parts[0] + sep + JoinWith(parts[1..], sep)
  }

  /** Python's `s.split(sep)` for a one-character separator: every piece
      between two separators is kept, empty pieces included. There is always
      at least one piece and no piece contains the separator; `JoinSplit`
      shows that joining the pieces gives back `s`. */
  function Split(s: string, sep: char): (parts: seq<string>)
    ensures |parts| > 0
    ensures forall i :: 0 <= i < |parts| ==> sep !in parts[i]
  {
    if |s| == 0 then [""]
    else
      var rest := Split(s[1..], sep);
      if s[0] == sep then [""] + rest
      else [[s[0]] + rest[0]] + rest[1..]
  }

  /** Joining the pieces of a split with the separator gives back the text. */
  lemma {:induction false} JoinSplit(s: string, sep: char)
    ensures JoinWith(Split(s, sep), [sep]) == s
  {
    if |s| > 0 {
      var rest := Split(s[1..], sep);
      JoinSplit(s[1..], sep);
      assert s == [s[0]] + s[1..];
      if s[0] == sep {
        assert JoinWith([""] + rest, [sep]) == [sep] + JoinWith(rest, [sep]);
      } else {
        var parts := [[s[0]] + rest[0]] + rest[1..];
        assert parts[1..] == rest[1..];
        assert |rest| > 1 ==> JoinWith(rest, [sep]) == rest[0] + [sep] + JoinWith(rest[1..], [sep]);
      }
    }
  }

  /** There is one more piece than there are separators. */
  lemma {:induction false} SplitPieceCount(s: string, sep: char)
    ensures |Split(s, sep)| == Count(s, sep) + 1
  {
    if |s| > 0 {
      SplitPieceCount(s[1..], sep);
      SplitStep(s, sep);
    }
  }

  /** A string without the separator splits into itself alone. */
  lemma {:induction false} SplitWithoutSeparator(s: string, sep: char)
    requires sep !in s
    ensures Split(s, sep) == [s]
  {
    if |s| > 0 {
      SplitWithoutSeparator(s[1..], sep);
      assert s == [s[0]] + s[1..];
    }
  }

  /** One step of `Split`: the first character either ends the first piece
      or is prepended to it. */
  lemma SplitStep(s: string, sep: char)
    requires |s| > 0
    ensures s[0] == sep ==> Split(s, sep) == [""] + Split(s[1..], sep)
    ensures s[0] != sep ==>
      Split(s, sep) == [[s[0]] + Split(s[1..], sep)[0]] + Split(s[1..], sep)[1..]
  {
  }

  /** Extending the first piece of `ra` commutes with appending `rb`. */
  lemma ExtendFirstPiece(x: string, ra: seq<string>, rb: seq<string>)
    requires |ra| > 0
    ensures [x + (ra + rb)[0]] + (ra + rb)[1..] == [x + ra[0]] + ra[1..] + rb
  {
    assert (ra + rb)[0] == ra[0];
    assert (ra + rb)[1..] == ra[1..] + rb;
  }

  /** Splitting `a + sep + b` splits `a` and `b` independently. */
  lemma {:induction false} SplitConcat(a: string, sep: char, b: string)
    ensures Split(a + [sep] + b, sep) == Split(a, sep) + Split(b, sep)
  {
    var t := a + [sep] + b;
    SplitStep(t, sep);
    if |a| == 0 {
      assert t[1..] == b;
    } else {
      assert t[1..] == a[1..] + [sep] + b;
      SplitConcat(a[1..], sep, b);
      SplitStep(a, sep);
      if a[0] != sep {
        ExtendFirstPiece([a[0]], Split(a[1..], sep), Split(b, sep));
      }
    }
  }

  /** A leading piece without the separator becomes the first split piece. */
  lemma SplitPrepend(piece: string, sep: char, rest: string)
    requires sep !in piece
    ensures Split(piece + [sep] + rest, sep) == [piece] + Split(rest, sep)
  {
    SplitConcat(piece, sep, rest);
    SplitWithoutSeparator(piece, sep);
  }

  /** Splitting is the inverse of joining pieces that hold no separator. */
  lemma {:induction false} SplitJoin(parts: seq<string>, sep: char)
    requires |parts| > 0
    requires forall i :: 0 <= i < |parts| ==> sep !in parts[i]
    ensures Split(JoinWith(parts, [sep]), sep) == parts
  {
    if |parts| == 1 {
      SplitWithoutSeparator(parts[0], sep);
    } else {
      SplitWithoutSeparator(parts[0], sep);
      SplitJoin(parts[1..], sep);
      SplitConcat(parts[0], sep, JoinWith(parts[1..], [sep]));
      assert parts == [parts[0]] + parts[1..];
    }
  }

  /** Joining `n` separator-free pieces puts `n - 1` separators in the text. */
  lemma JoinCount(parts: seq<string>, sep: char)
    requires |parts| > 0
    requires forall i :: 0 <= i < |parts| ==> sep !in parts[i]
    ensures Count(JoinWith(parts, [sep]), sep) == |parts| - 1
  {
    SplitJoin(parts, sep);
    SplitPieceCount(JoinWith(parts, [sep]), sep);
  }

  /** A character found in neither the pieces nor the separator is not in
      their join. */
  lemma {:induction false} NotInJoin(parts: seq<string>, sep: string, c: char)
    requires c !in sep
    requires forall i :: 0 <= i < |parts| ==> c !in parts[i]
    ensures c !in JoinWith(parts, sep)
  {
    if |parts| > 1 {
      NotInJoin(parts[1..], sep, c);
    }
  }

  /** `p` occurs as a contiguous substring of `s` (Python's `p in s`). */
  ghost predicate IsInfix(p: string, s: string)
  {
    exists k :: OccursAt(p, s, k)
  }

  /** `p` occurs in `s` starting at index `k`. */
  predicate OccursAt(p: string, s: string, k: int)
  {
    0 <= k <= |s| - |p| && s[k..k + |p|] == p
  }

  lemma InfixOfConcat(p: string, a: string, s: string, b: string)
    requires IsInfix(p, s)
    ensures IsInfix(p, a + s + b)
  {
    var k :| OccursAt(p, s, k);
    assert (a + s + b)[|a| + k..|a| + k + |p|] == s[k..k + |p|];
    assert OccursAt(p, a + s + b, |a| + k);
  }

  /** Every piece of a join occurs in the joined string. */
  lemma {:induction false} JoinWithContainsEach(parts: seq<string>, sep: string, i: nat)
    requires i < |parts|
    ensures IsInfix(parts[i], JoinWith(parts, sep))
  {
    var j := JoinWith(parts, sep);
    if |parts| == 1 || i == 0 {
      assert j[0..|parts[0]|] == parts[0];
      assert OccursAt(parts[i], j, 0);
    } else {
      JoinWithContainsEach(parts[1..], sep, i - 1);
      InfixOfConcat(parts[i], parts[0] + sep, JoinWith(parts[1..], sep), "");
      assert parts[0] + sep + JoinWith(parts[1..], sep) + "" == j;
    }
  }

  predicate IsDigit(ch: char)
  {
    '0' <= ch <= '9'
  }

  function DigitChar(d: nat): (ch: char)
    requires d < 10
    ensures IsDigit(ch)
  {
    "0123456789"[d]
  }

  function DigitValue(ch: char): nat
    requires IsDigit(ch)
  {
    (ch - '0') as nat
  }

  predicate AllDigits(s: string)
  {
    forall i :: 0 <= i < |s| ==> IsDigit(s[i])
  }

  /** The number a string of decimal digits denotes. */
  function DecimalValue(s: string): nat
    requires AllDigits(s)
  {
    if |s| == 0 then 0
    else DecimalValue(s[..|s| - 1]) * 10 + DigitValue(s[|s| - 1])
  }

  /** Python's `str(n)` for a natural number: decimal digits without a
      leading zero, denoting `n`. */
  function Decimal(n: nat): (s: string)
    ensures |s| > 0
    ensures AllDigits(s)
    ensures s[0] == '0' ==> s == "0"
    ensures DecimalValue(s) == n
  {
    if n < 10 then
      assert DigitValue(DigitChar(n)) == n;
      [DigitChar(n)]
    else
      var high := Decimal(n / 10);
      var s := high + [DigitChar(n % 10)];
      assert s[..|s| - 1] == high;
      assert DigitValue(DigitChar(n % 10)) == n % 10;
      s
  }

  /** Python's `'%s' % n` for an integer `n`: a minus sign for negatives. */
  function IntText(n: int): (s: string)
    ensures |s| > 0
    ensures '/' !in s
    ensures n < 0 <==> s[0] == '-'
    ensures n < 0 ==> AllDigits(s[1..]) && DecimalValue(s[1..]) == -n
    ensures n >= 0 ==> AllDigits(s) && DecimalValue(s) == n
    ensures n >= 0 ==> (s[0] == '0' ==> s == "0")
    ensures n < 0 ==> |s| > 1 && s[1] != '0'
  {
    if n < 0 then
      var d := Decimal(-n);
      assert ("-" + d)[1..] == d;
      "-" + d
    else Decimal(n)
  }
}

=== FILE: wrappers.dfy ===
/** Wrappers used by the client model: an optional value
    (Python's `None` or a value) and a result that is either a value or the
    error the Python code would raise. */
module Wrappers {

  datatype Option<+T> = None | Some(value: T)

  datatype Result<+R, +E> = Success(value: R) | Failure(error: E)
}
